=== FILE: README.md ===
# Island Connect AI: voice-session scheduler, widget state machine and page controllers in Dafny

This project models the behavioural core of the Island Connect AI marketing site:

- **The session client** (`services/liveClient.ts`, module `LiveClient`). It keeps a playback cursor
  (`nextStartTime`) and a set of scheduled audio sources. Each inbound speech chunk starts at
  `max(cursor, clock)` and moves the cursor past itself. A source leaves the set when it ends. An
  interruption (barge-in) stops every source and resets the cursor. `startAudioInput` builds the
  capture graph only while an input context exists. `disconnect` releases each resource that is
  present, in a fixed order.
- **The voice widget** (`components/VoiceAgent.tsx`, module `VoiceAgent`, with the `ConnectionState`
  enum of `types.ts` in module `Types`). This covers the toggle button, connect with its success and
  failure paths, disconnect, the remote close and error callbacks, and the status and error display.
- **The static page's controllers** (`js/main.js`). These are the wrap-around testimonial slider
  (`TestimonialSlider`), the clamped project slider and its swipe rule (`ProjectSlider`), the FAQ
  accordion (`Faq`), the mobile menu (`NavMenu`), and the lead form's response reading and
  error-message choice (`LeadForm`).

`Common` holds the JavaScript built-ins the code relies on: `%` (which truncates, unlike Dafny's),
`Math.max`, `Array.prototype.join` and `String.prototype.includes`.

State is held in immutable datatypes, and every handler is a pure transition function. Browser
objects (audio contexts and graph nodes) are opaque handles. Several values come from code outside
the model, so they are parameters:

- the output clock (`currentTime`);
- the duration of a decoded chunk;
- the window width;
- touch coordinates;
- the result of the awaited `connect()`;
- the HTTP response.

Times are non-negative reals (`Seconds`).

Some behaviours of the code are easy to misread, so the model states them directly:

- On an interruption the code resets the cursor to 0, not to the current clock.
  `LiveClient.ChunkAfterInterruptStartsAtClock` shows that the next chunk still starts at its own
  arrival clock. With messages handled one at a time (see "## Left out") the reset cannot be
  observed. A chunk whose decode is still pending when the interruption arrives would start at 0,
  that is at once, and would survive the clear; that interleaving is not modelled.
- Playback is gap-free only while each chunk arrives before its predecessor ends
  (`LiveClient.NoOverlapNoGap`). A chunk that arrives later starts at the clock. For example, chunks
  of 0.5 s, 0.3 s and 0.2 s arriving at t0, t0+0.1 and t0+0.9 start at t0, t0+0.5 and t0+0.9,
  because the second chunk ends at t0+0.8 (`LiveClient.LateChunkStartsAtClock`).
- The cursor catches up with the clock before the chunk is decoded. If decoding rejects, the handler
  throws: no source is created and an `interrupted` flag on the same message is never acted on
  (`LiveClient.DecodeFailureSkipsInterrupt`).
- `disconnect` awaits each `close()`, so a rejected close would skip the steps after it.
- A press of the main button in ERROR connects directly.

The `.dot` selector used by the testimonial slider also matches the project slider's dots. A dot click
can therefore set a testimonial index at or beyond the slide count. `TestimonialSlider.NextSlide` and
`PrevSlide` bring any index back into range. The same overlap disturbs the project dots; see
"## Left out".

## Model

| member | source | states |
|---|---|---|
| `LiveClient.Schedule` | services/liveClient.ts:107-128 | a chunk starts no earlier than the clock or the cursor, at one of the two (their maximum); the cursor moves to the chunk's end; the new source joins the set and nothing else changes |
| `LiveClient.InlineAudio` | services/liveClient.ts:104-105 | audio is found exactly when the full optional chain reaches a first part with non-empty inline data, whatever else the message carries (more parts, an `interrupted` flag), and the value returned is that data |
| `LiveClient.AudioMessageRoundTrip` | services/liveClient.ts:104-105 | the audio of a message carrying `data` in its first part reads back as `data`, and an empty string as no audio |
| `LiveClient.HandleMessage` | services/liveClient.ts:103-143 | playable audio first moves the cursor up to the clock; a rejected decode then ends the handler with no source and no interrupt handling; a decoded chunk is scheduled; an interrupt then calls `stop` on every pending source, including that chunk, empties the set and zeroes the cursor; without audio, output or interrupt nothing changes; handles are never touched |
| `LiveClient.DecodeFailureSkipsInterrupt` | services/liveClient.ts:107-134 | when decoding rejects, an interrupted message stops nothing, keeps every source, and leaves the cursor at the later of itself and the clock |
| `LiveClient.StopAudioOutput` | services/liveClient.ts:137-143 | `stop` is attempted on every scheduled source; the set ends empty and the cursor at 0; no handle changes |
| `LiveClient.OnEnded` | services/liveClient.ts:122-124 | the `ended` event removes exactly its own source; every other source and the cursor are untouched |
| `LiveClient.StartAudioInput` | services/liveClient.ts:75-81 | without an input context nothing happens; otherwise the microphone source and the processor, with its frame callback, are installed; capture is on afterwards exactly when it was on before or an input context exists |
| `LiveClient.Disconnect` | services/liveClient.ts:145-169 | all sources are stopped and the set is emptied; the cursor is 0; input source, processor, input context and output context end null, so nothing is captured or played; the output gain node is kept; at most four resources are released |
| `LiveClient.DisconnectReleaseOrder` | services/liveClient.ts:152-168 | releases occur in the fixed order (input source, processor, input context, output context), each kind at most once |
| `LiveClient.DisconnectReleasesHeld` | services/liveClient.ts:152-168 | exactly the resources the client held are released, and the processor is released with its frame callback cleared |
| `LiveClient.DisconnectIdempotent` | services/liveClient.ts:145-169 | a second `disconnect` stops nothing, releases nothing and changes nothing |
| `LiveClient.DisconnectNeverConnected` | services/liveClient.ts:145-169 | `disconnect` on a client that never connected stops and releases nothing |
| `LiveClient.NoPlaybackAfterDisconnect` | services/liveClient.ts:107 | after `disconnect` no message schedules audio or changes anything, because the output context is null |
| `LiveClient.NoCaptureAfterDisconnect` | services/liveClient.ts:76 | a late `onopen` after `disconnect` builds no capture graph, and no frames flow |
| `LiveClient.ScheduleAfterPending` | services/liveClient.ts:109-127 | a new chunk starts no earlier than the end of any source still scheduled |
| `LiveClient.ScheduleValid` | services/liveClient.ts:109-128 | scheduling keeps the invariant: ids already handed out, no source past the cursor, later sources after earlier ones |
| `LiveClient.HandleMessageValid` | services/liveClient.ts:103-143 | every message keeps that invariant |
| `LiveClient.OnEndedValid` | services/liveClient.ts:122-124 | an `ended` event keeps that invariant |
| `LiveClient.Step` | services/liveClient.ts:103-143 | one message or `ended` event never touches the context, node or processor handles, and hands out a new source id exactly when it schedules a chunk |
| `LiveClient.Run` | services/liveClient.ts:103-143 | over any run of events the handles stay as they were, and exactly one id is handed out per chunk started |
| `LiveClient.RunValid` | services/liveClient.ts:103-143 | any run of messages and `ended` events keeps that invariant |
| `LiveClient.OldSourcesPersist` | services/liveClient.ts:118-128 | a source id handed out before a run is never reused: if it is still scheduled after the run, it holds the same playback as before |
| `LiveClient.SlotStored` | services/liveClient.ts:118-128 | whenever id `created + k` is still stored after a run, it holds exactly the start and duration of the `k`-th chunk the run started |
| `LiveClient.Persist` | services/liveClient.ts:122-128 | without an interruption, a scheduled source stays in the set through any run that does not contain its own `ended` event |
| `LiveClient.SlotPresent` | services/liveClient.ts:118-128 | without an interruption, the `k`-th chunk a run starts is still stored under id `created + k` at the end unless its own `ended` event came; with `SlotStored`, it is stored with exactly that chunk's playback |
| `LiveClient.ChunkAfterInterruptStartsAtClock` | services/liveClient.ts:109-142 | after an interrupt, the next chunk is the only source and starts exactly at its arrival clock, even though the cursor was reset to 0 |
| `LiveClient.Contiguous` | services/liveClient.ts:109-127 | with no interrupt and no rejected decode, each chunk starts at the later of the previous chunk's end and its own arrival clock (the first at the later of the cursor and its clock), and the cursor ends at the last chunk's end |
| `LiveClient.NoOverlapNoGap` | services/liveClient.ts:109-127 | with no interrupt and no rejected decode, consecutive chunks never overlap, and a chunk arriving before its predecessor ends starts exactly at that end |
| `LiveClient.CursorMonotone` | services/liveClient.ts:109-127 | with no interrupt, the cursor never decreases over a run of events |
| `LiveClient.LateChunkStartsAtClock` | services/liveClient.ts:109-127 | chunks of 0.5, 0.3 and 0.2 s arriving at t0, t0+0.1 and t0+0.9 start at t0, t0+0.5 and t0+0.9 |
| `VoiceAgent.FailureText` | components/VoiceAgent.tsx:36-37 | the error text is the exception message when non-empty, otherwise the fixed default, so it is never empty |
| `VoiceAgent.HandleDisconnect` | components/VoiceAgent.tsx:43-50 | ends DISCONNECTED with volume 0 and no client; the client's `disconnect` runs exactly when a client was held; the error is kept |
| `VoiceAgent.BeginConnect` | components/VoiceAgent.tsx:23-31 | connecting first sets CONNECTING, clears the error and puts a new client in the ref |
| `VoiceAgent.SettleConnect` | components/VoiceAgent.tsx:32-40 | success ends CONNECTED with the connected client; failure ends ERROR with the failure text and a null ref, and the volume is kept |
| `VoiceAgent.HandleConnect` | components/VoiceAgent.tsx:21-41 | success ends CONNECTED with the client and no error; failure ends ERROR with the message and no client; no teardown is performed on failure |
| `VoiceAgent.Toggle` | components/VoiceAgent.tsx:13-19 | in CONNECTED the toggle is exactly `handleDisconnect`; in any other state it is exactly `handleConnect` with the given result, so it ends CONNECTED on success and ERROR with the failure text otherwise |
| `VoiceAgent.Press` | components/VoiceAgent.tsx:111-113 | the button is disabled in CONNECTING, so a press there does nothing; in every other state a press is exactly the toggle: from DISCONNECTED or ERROR it connects with the given result, from CONNECTED it disconnects |
| `VoiceAgent.Step` | components/VoiceAgent.tsx:26-29 | a click is exactly a press of the main button; only the client in the ref is ever torn down; a client event advances that client; a volume sample sets the volume only while the held client's frame callback is installed and otherwise does nothing; neither touches the state, the error or the teardown |
| `VoiceAgent.RemoteEndIsDisconnect` | components/VoiceAgent.tsx:26-29 | a remote close, a remote error and unmount all take the disconnect path, as does the close button in CONNECTED |
| `VoiceAgent.SilentAfterDisconnect` | services/liveClient.ts:156-158 | after a disconnect the volume is 0 and no volume sample changes anything, because the frame callback that produced them is gone |
| `VoiceAgent.DisconnectTwice` | components/VoiceAgent.tsx:43-50 | a second disconnect calls nothing and changes nothing |
| `VoiceAgent.MountConsistent` | components/VoiceAgent.tsx:8-11 | the widget mounts DISCONNECTED with no client and no error, which satisfies the widget invariant |
| `VoiceAgent.StepConsistent` | components/VoiceAgent.tsx:13-50 | every event keeps the invariant: a client is held exactly in CONNECTED, and ERROR always carries a non-empty message |
| `VoiceAgent.NoClientDropped` | components/VoiceAgent.tsx:13-50 | in a consistent widget, a client held in CONNECTED is kept, advanced by its own client event, or removed together with its own `disconnect`; it is never replaced or dropped silently (this says nothing about a failed connect, nor about the session object) |
| `VoiceAgent.DisconnectStopsCurrentAudio` | components/VoiceAgent.tsx:43-47 | disconnecting after a client event stops exactly the sources the advanced client holds, not those of an earlier snapshot |
| `VoiceAgent.StatusLabel` | components/VoiceAgent.tsx:72 | the label reads "Kai Active" exactly in CONNECTED and "Kai Standby" otherwise |
| `VoiceAgent.ShownError` | components/VoiceAgent.tsx:104-106 | an error is shown only in ERROR, and there it is the stored error |
| `VoiceAgent.ErrorShownOnlyInError` | components/VoiceAgent.tsx:104-106 | the error text is shown exactly in ERROR, and is never empty there |
| `Common.Max` | services/liveClient.ts:109 | `Math.max`: no smaller than either argument, and equal to one of them |
| `Common.JsRem` | js/main.js:262 | the `%` operator: smaller than the divisor in magnitude and with the sign of the dividend; for a positive divisor, it equals the Euclidean remainder when non-negative and that remainder minus the divisor when negative, so it truncates |
| `Common.JoinAppend` | js/main.js:186 | joining a concatenation gives the two joined halves with one separator between them |
| `Common.JoinEmpty` | js/main.js:186 | with a non-empty separator, a join is empty exactly when there is nothing to join or the only part is empty |
| `Common.ContainsEmbedded` | js/main.js:162 | a string containing the substring anywhere satisfies `includes` |
| `Common.ContainsSplit` | js/main.js:162 | a string that satisfies `includes` splits around one occurrence of the substring |
| `TestimonialSlider.Update` | js/main.js:252-259 | without a track nothing changes; otherwise the index and offset are set, and exactly the dot at the index, if any, is active |
| `TestimonialSlider.NextIndex` | js/main.js:261-264 | the next index is `(current + 1) % count` for every current index, including one at or past the count: one more than the current, wrapping from the last slide to 0 |
| `TestimonialSlider.PrevIndex` | js/main.js:266-269 | the previous index is `(current - 1 + count) % count` for every current index, including one past the count: one less than the current, wrapping from 0 to the last slide |
| `TestimonialSlider.NextPrevInverse` | js/main.js:261-269 | on an in-range index, next and previous undo each other |
| `TestimonialSlider.NextSlide` | js/main.js:261-264 | the next arrow moves to the next index, wrapping from the last slide to the first, moves the track to it and lights exactly its dot |
| `TestimonialSlider.PrevSlide` | js/main.js:266-269 | the previous arrow moves to the previous index, wrapping from the first slide to the last, moves the track to it and lights exactly its dot |
| `TestimonialSlider.DotClick` | js/main.js:289-294 | with a track, a dot click makes that dot's index current, moves the track to it and lights exactly that dot; without a track nothing changes |
| `TestimonialSlider.OneActiveDot` | js/main.js:255-256 | after an update at most one dot is active, and the dot at the index is active when it exists |
| `TestimonialSlider.NextThenPrev` | js/main.js:261-269 | next then previous, and previous then next, return to the starting slide |
| `ProjectSlider.Clamp` | js/main.js:307-308 | the index lands in [0, total-1]; it is unchanged inside that range, 0 below it and total-1 above it |
| `ProjectSlider.MovePercent` | js/main.js:310-315 | one card per view up to 768 px wide, two up to 1100 px, three beyond |
| `ProjectSlider.Update` | js/main.js:306-323 | the stored index is the clamped one; only its dot is active; the offset is the index times the step |
| `ProjectSlider.Swipe` | js/main.js:334-338 | a swipe within 50 either way changes nothing; beyond 50 to the left the index becomes the clamped next one, beyond 50 to the right the clamped previous one |
| `ProjectSlider.SwipeRule` | js/main.js:334-338 | a swipe of more than 50 to the left moves forward one, more than 50 to the right moves back one, and anything else changes nothing |
| `ProjectSlider.SwipeInRange` | js/main.js:306-338 | a swipe keeps the index in range, with only its dot active |
| `ProjectSlider.ResizeKeepsIndex` | js/main.js:340 | a resize keeps the index and the dots as they were |
| `ProjectSlider.SwipeStopsAtEnds` | js/main.js:306-338 | swiping past the last card or before the first leaves the index where it is |
| `Faq.IconFor` | js/main.js:103-107 | the icon is the dash exactly when the item is open |
| `Faq.Click` | js/main.js:94-109 | the clicked item flips and every other item closes; each icon is redrawn from its item's state, as `bi bi-dash` on the open item and `bi bi-plus` on the others |
| `Faq.ClickInvariant` | js/main.js:94-109 | after any click at most one item is open, and an icon is the dash exactly when its item is open |
| `Faq.ClickTwice` | js/main.js:94-109 | when no other item is open, clicking the same item twice restores the page |
| `NavMenu.Toggle` | js/main.js:222-230 | the toggle flips the menu, and the icon class is `bi bi-x-lg` exactly when the menu is open and `bi bi-list` otherwise |
| `NavMenu.LinkClick` | js/main.js:233-237 | clicking a link leaves the menu closed with the `bi bi-list` icon |
| `NavMenu.ToggleLaws` | js/main.js:222-238 | two toggles restore the menu; closing twice equals closing once; a toggle after closing opens the menu |
| `LeadForm.IsJsonIffEmbedded` | js/main.js:161-162 | the body is read as JSON exactly when a content-type header exists and contains `application/json` anywhere |
| `LeadForm.ReadBody` | js/main.js:161-166 | a JSON body is the parsed JSON, or nothing when `json()` rejects; any other body is `{message: text}`, or nothing when `text()` rejects |
| `LeadForm.Messages` | js/main.js:186 | `errors.map(err => err.message)`: one message per entry, in order, with a missing message read as "" |
| `LeadForm.ErrorMessage` | js/main.js:184-193 | without an `errors` list the message is never empty: a non-empty `error` if there is one, otherwise one of the three status texts |
| `LeadForm.ErrorMessagePriority` | js/main.js:184-193 | an `errors` list decides alone (an empty list gives ""); then a non-empty `error`; then the 404 or 401 text; then "Submission failed." |
| `LeadForm.ErrorListsJoin` | js/main.js:186 | the messages of two error lists are joined by ", " |
| `LeadForm.ErrorMessageEmpty` | js/main.js:184-193 | the message is empty exactly when `errors` is present and either empty or holding one empty message |
| `LeadForm.NonJsonByStatus` | js/main.js:161-193 | a body that is not JSON, once read, never carries errors, so only the status chooses its message |
| `LeadForm.Submit` | js/main.js:150-212 | a thrown fetch or an unreadable body gives the local-file notice exactly for `file:` pages and the connection error otherwise; a readable ok response is sent; a readable failed response is rejected with its status and the message `ErrorMessage` chooses |
| `LeadForm.NonJsonOutcome` | js/main.js:161-208 | a response that is not JSON lands in the catch exactly when `text()` rejects; otherwise it is sent or rejected, and a rejection's message is chosen by the status alone |
| `LeadForm.CatchOutcomes` | js/main.js:200-208 | the local-file notice and the connection error are shown exactly when fetch threw or the body could not be read, and the notice only on `file:` pages |

## Left out

- `LiveClient.connect` and the vendor SDK session (services/liveClient.ts:31-73) are left out. Context creation, `getUserMedia` and the live-session handshake are foreign calls. The result of connect enters the widget model as an input: an opened client or a failure message.
- Cleanup after a failed connect is left out. The audio contexts are created before the microphone request, and the widget drops the client without calling `disconnect`. The model drops the ref without a teardown and claims nothing about the contexts.
- The RMS volume computation (services/liveClient.ts:85-90) is left out: it is floating-point sums and a square root. The volume reaches the widget as an event carrying a number.
- The frame encoding, base64 decoding and audio decoding helpers are left out. `utils/audio` is not part of this model, so the decoded duration is a parameter.
- `session.sendRealtimeInput` and the unused `session` field are left out. They are foreign calls, and `disconnect` never closes the session.
- `LiveClient.HandleMessage`: each message is handled as one atomic step. The source awaits the decoder between setting the cursor and starting the source, so concurrent messages could interleave there. That is a concurrency concern and is not modelled.
- `LiveClient.Disconnect`: every `close()` is assumed to succeed, and `disconnect` is one atomic step. The source yields while each context closes, with the output context still set until its own close finishes. A message arriving in that window passes the output guard and schedules a source after the output was stopped. A late `onopen` in the same window reinstalls the processor. These interleavings are not modelled, so the teardown lemmas hold only for a `disconnect` that nothing interrupts.
- `VoiceAgent.HandleConnect`: connect is atomic at the event level, so CONNECTING is never a resting state between events. A remote close or an unmount arriving while `connect()` is pending is not modelled.
- The string values of the `ConnectionState` enum (types.ts:7-10) are left out. No code reads or compares them, so `Types` keeps only the four members.
- The constructor's API-key warning is left out. It only logs to the console.
- `components/Visualizer.tsx` is left out. It is float smoothing, `Date.now` and canvas drawing.
- The particle system and fps limiter (js/main.js:1-90) are left out: randomness, floats and canvas.
- The IntersectionObserver reveal (js/main.js:112-133) is left out. It only sets styles.
- The testimonial auto-slide timer (js/main.js:271-277) is left out because it is time-driven. Each tick is `NextSlide`, which is modelled.
- The lead form's `fetch`, `alert`, `setTimeout`, button text and form reset are left out as I/O and timing. `LeadForm.Submit` models only which outcome the visitor is told.
- `LeadForm.Body`: the `error` field is modelled as a string, so a non-string JSON value there is not covered.
- `LeadForm.Submit`: a parsed JSON body is assumed to be an object whose `errors`, when present, is an array of objects. A `null` body, a truthy `errors` that is not an array, or a `null` entry would throw while the message is built and land in the catch. Those outcomes are not modelled.
- `ProjectSlider.SwipeInRange`: the invariant "only the current project dot is active" holds for the project slider taken alone. On the page, the testimonial slider's `.dot` selector also matches the project dots. Every testimonial update, including each 5 s auto-slide tick, clears their `active` class. A click on a project dot also runs the testimonial dot handler first. This cross-talk between the two sliders is not modelled.
- The track transform strings are left out. Offsets are kept as numbers: the index times 100 for testimonials, and the index times the step for projects.
- `App.tsx`, `Header.tsx`, `Features.tsx`, `constants.ts`, `vite.config.ts` and `index.tsx` are left out. They are static markup, configuration or a mount check.

=== FILE: common.dfy ===
/**
 * Value types and JavaScript built-in behaviour shared by the modules of the model:
 * optional values (`null`/`undefined`), `Math.max`, the `%` operator,
 * `Array.prototype.join` and `String.prototype.includes`.
 */
module Common {

  /** An optional value; `None` stands for JavaScript's `null` or `undefined`. */
  datatype Option<+T> = None | Some(value: T)

  function Abs(x: int): int {
    if x < 0 then -x else x
  }

  /** `Math.max` on two reals. */
  function Max(a: real, b: real): (m: real)
    ensures a <= m && b <= m
    ensures m == a || m == b
  {
    if a >= b then a else b
  }

  /**
   * JavaScript's `%`: division truncates toward zero, so the remainder takes the
   * sign of the dividend (Dafny's own `%` is Euclidean and never negative).
   */
  function JsRem(a: int, b: int): (r: int)
    requires b != 0
    ensures 0 <= a && 0 < b ==> r == a % b
    ensures -Abs(b) < r < Abs(b)
    ensures r != 0 ==> (r < 0 <==> a < 0)
    ensures 0 < b ==> (r >= 0 ==> r == a % b) && (r < 0 ==> r + b == a % b)
  {
    var m := Abs(a) % Abs(b);
    if a >= 0 then m else NegativeRem(a, b); -m
  }

  /** For a negative dividend and a positive divisor, Euclid's remainder is the truncated one shifted up by `b`. */
  lemma NegativeRem(a: int, b: int)
    requires a < 0 && b != 0
    ensures 0 < b && Abs(a) % b == 0 ==> a % b == 0
    ensures 0 < b && Abs(a) % b != 0 ==> a % b == b - Abs(a) % b
  {
    if 0 < b {
      var q := Abs(a) / b;
      var m := Abs(a) % b;
      assert Abs(a) == q * b + m;
      if m == 0 {
        ModUnique(a, b, -q, 0);
      } else {
        ModUnique(a, b, -q - 1, b - m);
      }
    }
  }

  /** A remainder is determined by any quotient that leaves a remainder in range. */
  lemma ModUnique(a: int, b: int, q: int, s: int)
    requires 0 <= s < b && a == q * b + s
    ensures a % b == s
  {
    var d := q - a / b;
    assert d * b == a % b - s;
    MultipleInOpenRange(d, b);
  }

  /** The only multiple of `b` strictly between `-b` and `b` is 0. */
  lemma MultipleInOpenRange(d: int, b: int)
    requires 0 < b && -b < d * b < b
    ensures d == 0
  {
  }

  /** `parts.join(sep)`. */
  function Join(parts: seq<string>, sep: string): string
    decreases |parts|
  {
    if |parts| == 0 then ""
    else if |parts| == 1 then parts[0]
    else parts[0] + sep + Join(parts[1..], sep)
  }

  /** Joining a concatenation puts one separator between the two joined halves. */
  lemma {:induction false} JoinAppend(a: seq<string>, b: seq<string>, sep: string)
    requires |a| > 0 && |b| > 0
    ensures Join(a + b, sep) == Join(a, sep) + sep + Join(b, sep)
    decreases |a|
  {
    if |a| == 1 {
      assert a + b == [a[0]] + b;
      assert (a + b)[1..] == b;
    } else {
      assert (a + b)[0] == a[0];
      assert (a + b)[1..] == a[1..] + b;
      JoinAppend(a[1..], b, sep);
    }
  }

  /**
   * With a non-empty separator the joined string is empty exactly when there is
   * nothing to join or the only part is itself empty.
   */
  lemma {:induction false} JoinEmpty(parts: seq<string>, sep: string)
    requires sep != ""
    ensures Join(parts, sep) == "" <==> |parts| == 0 || (|parts| == 1 && parts[0] == "")
  {
    if |parts| > 1 {
      assert |Join(parts, sep)| >= |sep| > 0;
    }
  }

  predicate StartsWith(s: string, prefix: string) {
    |prefix| <= |s| && s[..|prefix|] == prefix
  }

  /** `s.includes(sub)`. */
  predicate Contains(s: string, sub: string)
    decreases |s|
  {
    StartsWith(s, sub) || (|s| > 0 && Contains(s[1..], sub))
  }

  /** Whatever surrounds it, a string that embeds `sub` contains it. */
  lemma {:induction false} ContainsEmbedded(p: string, sub: string, q: string)
    ensures Contains(p + sub + q, sub)
    decreases |p|
  {
    if |p| == 0 {
      assert p + sub + q == sub + q;
      assert (sub + q)[..|sub|] == sub;
    } else {
      assert (p + sub + q)[1..] == p[1..] + sub + q;
      ContainsEmbedded(p[1..], sub, q);
    }
  }

  /** Conversely, a string that contains `sub` splits around one occurrence of it. */
  lemma {:induction false} ContainsSplit(s: string, sub: string) returns (p: string, q: string)
    requires Contains(s, sub)
    ensures s == p + sub + q
    decreases |s|
  {
    if StartsWith(s, sub) {
      p, q := "", s[|sub|..];
      assert s == s[..|sub|] + s[|sub|..];
    } else {
      var p', q' := ContainsSplit(s[1..], sub);
      p, q := [s[0]] + p', q';
      assert s == [s[0]] + s[1..];
    }
  }
}

=== FILE: faq.dfy ===
/**
 * The FAQ accordion of the static page (js/main.js): a click closes every item
 * and reopens the clicked one unless it was the open one, then redraws every
 * item's icon.
 */
module Faq {

  /** The icon classes: `bi bi-plus` on a closed item, `bi bi-dash` on an open one. */
  datatype Icon = Plus | Dash

  function IconClass(i: Icon): string {
    match i
    case Plus => "bi bi-plus"
    case Dash => "bi bi-dash"
  }

  datatype Item = Item(active: bool, icon: Icon)

  /** The icon of an item whose `active` class is `active`. */
  function IconFor(active: bool): (r: Icon)
    ensures r == Dash <==> active
  {
    if active then Dash else Plus
  }

  /** A click on item `k`. */
  function Click(items: seq<Item>, k: nat): (r: seq<Item>)
    requires k < |items|
    ensures |r| == |items|
    ensures r[k].active == !items[k].active
    ensures forall j :: 0 <= j < |r| && j != k ==> !r[j].active
    ensures forall j :: 0 <= j < |r| ==> r[j].icon == IconFor(r[j].active)
    ensures forall j :: 0 <= j < |r| ==>
      IconClass(r[j].icon) == if r[j].active then "bi bi-dash" else "bi bi-plus"
  {
    var wasActive := items[k].active;
    seq(|items|, j requires 0 <= j < |items| =>
      var active := j == k && !wasActive;
      Item(active, IconFor(active)))
  }

  ghost predicate AtMostOneOpen(items: seq<Item>) {
    forall i, j :: 0 <= i < j < |items| ==> !(items[i].active && items[j].active)
  }

  ghost predicate IconsMatch(items: seq<Item>) {
    forall j :: 0 <= j < |items| ==> (items[j].icon == Dash <==> items[j].active)
  }

  /** Whatever the page looked like before, after a click at most one item is open and every icon matches. */
  lemma ClickInvariant(items: seq<Item>, k: nat)
    requires k < |items|
    ensures AtMostOneOpen(Click(items, k))
    ensures IconsMatch(Click(items, k))
  {
  }

  /**
   * Clicking the same item twice restores the page when nothing else was open:
   * a closed item opens and closes again, the open item closes and reopens.
   */
  lemma ClickTwice(items: seq<Item>, k: nat)
    requires k < |items|
    requires IconsMatch(items)
    requires forall j :: 0 <= j < |items| && j != k ==> !items[j].active
    ensures Click(Click(items, k), k) == items
  {
    var r := Click(Click(items, k), k);
    forall j | 0 <= j < |items|
      ensures r[j] == items[j]
    {
    }
  }
}

=== FILE: lead_form.dfy ===
/**
 * The lead-capture form's response handling on the static page (js/main.js):
 * how the body is read and which error message a rejected submission shows.
 *
 * JavaScript truthiness is modelled on the fields' values: an `errors` array is
 * truthy even when empty, while an empty `error` string is falsy.
 */
module LeadForm {
  import opened Common

  /** One entry of the backend's `errors` array; a missing `message` joins as "". */
  datatype FieldError = FieldError(message: Option<string>)

  /** The parsed response body; an absent or empty `error` is "". */
  datatype Body = Body(errors: Option<seq<FieldError>>, error: string, message: string)

  const JsonType: string := "application/json"
  const DefaultFailure: string := "Submission failed."
  const NotFoundText: string := "Form not found. Please check your Formspree ID."
  const InactiveText: string := "Form requires activation. Please check your email and confirm the form."

  /** The body is read as JSON only when a content-type header exists and mentions JSON. */
  predicate IsJson(contentType: Option<string>) {
    contentType.Some? && Contains(contentType.value, JsonType)
  }

  /** A header is read as JSON exactly when it embeds `application/json` somewhere. */
  lemma IsJsonIffEmbedded(contentType: Option<string>)
    ensures IsJson(contentType) <==>
      contentType.Some? && exists p, q :: contentType.value == p + JsonType + q
  {
    if IsJson(contentType) {
      var p, q := ContainsSplit(contentType.value, JsonType);
      assert contentType.value == p + JsonType + q;
    }
    if contentType.Some? && exists p, q :: contentType.value == p + JsonType + q {
      var p, q :| contentType.value == p + JsonType + q;
      ContainsEmbedded(p, JsonType, q);
    }
  }

  /**
   * The body: the parsed JSON when the header says JSON, otherwise
   * `{message: text}`. `json` and `text` are `None` when `response.json()` or
   * `response.text()` rejects; the result is then `None`, and the handler lands
   * in its catch. Only the reader the header selects is called.
   */
  function ReadBody(contentType: Option<string>, text: Option<string>, json: Option<Body>): (r: Option<Body>)
    ensures IsJson(contentType) ==> r == json
    ensures !IsJson(contentType) ==> (r.Some? <==> text.Some?)
    ensures !IsJson(contentType) && text.Some? ==> r == Some(Body(None, "", text.value))
  {
    if IsJson(contentType) then json
    else if text.Some? then Some(Body(None, "", text.value))
    else None
  }

  function Messages(errors: seq<FieldError>): (r: seq<string>)
    ensures |r| == |errors|
    ensures forall i :: 0 <= i < |errors| ==>
      r[i] == (if errors[i].message.Some? then errors[i].message.value else "")
  {
    seq(|errors|, i requires 0 <= i < |errors| =>
      if errors[i].message.Some? then errors[i].message.value else "")
  }

  /** The message of a rejected submission, by priority: the `errors` list, `error`, the status, the default. */
  function ErrorMessage(body: Body, status: int): (r: string)
    ensures body.errors.None? ==> r != ""
    ensures body.errors.None? && body.error != "" ==> r == body.error
    ensures body.errors.None? && body.error == "" ==> r in {NotFoundText, InactiveText, DefaultFailure}
  {
    if body.errors.Some? then Join(Messages(body.errors.value), ", ")
    else if body.error != "" then body.error
    else if status == 404 then NotFoundText
    else if status == 401 then InactiveText
    else DefaultFailure
  }

  /**
   * The priority order: an `errors` list decides alone (an empty list gives "");
   * otherwise a non-empty `error`; otherwise the status text for 404 and 401;
   * otherwise the default.
   */
  lemma ErrorMessagePriority(body: Body, status: int)
    ensures body.errors.Some? && |body.errors.value| == 0 ==> ErrorMessage(body, status) == ""
    ensures body.errors.Some? && |body.errors.value| == 1 ==>
      ErrorMessage(body, status) == Messages(body.errors.value)[0]
    ensures body.errors.None? && body.error != "" ==> ErrorMessage(body, status) == body.error
    ensures body.errors.None? && body.error == "" ==>
      ErrorMessage(body, status) ==
        (if status == 404 then NotFoundText else if status == 401 then InactiveText else DefaultFailure)
  {
  }

  /** Two error lists give the two messages joined by a comma. */
  lemma ErrorListsJoin(a: seq<FieldError>, b: seq<FieldError>, error: string, text: string, status: int)
    requires |a| > 0 && |b| > 0
    ensures ErrorMessage(Body(Some(a + b), error, text), status) ==
      ErrorMessage(Body(Some(a), error, text), status) + ", " + ErrorMessage(Body(Some(b), error, text), status)
  {
    assert Messages(a + b) == Messages(a) + Messages(b);
    JoinAppend(Messages(a), Messages(b), ", ");
  }

  /** The message is empty exactly when it comes from an `errors` list that is empty or holds one empty message. */
  lemma ErrorMessageEmpty(body: Body, status: int)
    ensures ErrorMessage(body, status) == "" <==>
      body.errors.Some? &&
      (|body.errors.value| == 0 || (|body.errors.value| == 1 && Messages(body.errors.value)[0] == ""))
  {
    if body.errors.Some? {
      JoinEmpty(Messages(body.errors.value), ", ");
    }
  }

  /** A body that was not JSON never carries errors, so only the status picks its message. */
  lemma NonJsonByStatus(contentType: Option<string>, text: Option<string>, json: Option<Body>, status: int)
    requires !IsJson(contentType)
    ensures var b := ReadBody(contentType, text, json);
      b.Some? ==> ErrorMessage(b.value, status) in {NotFoundText, InactiveText, DefaultFailure}
  {
  }

  /** What the visitor is told. */
  datatype Outcome =
    | Sent                                 // the success alert, after the button resets
    | Rejected(status: int, message: string)
    | LocalFileNotice                      // fetch threw on a page opened from `file:`
    | ConnectionError                      // fetch or body parsing threw otherwise

  /**
   * The HTTP response as far as the handler reads it: `json` is `None` when
   * `response.json()` would reject, `text` when `response.text()` would.
   */
  datatype Response = Response(ok: bool, status: int, contentType: Option<string>, text: Option<string>, json: Option<Body>)

  /**
   * The submit handler: `response` is `None` when `fetch` throws. Reading a
   * JSON body can throw too, and lands in the same catch.
   */
  function Submit(response: Option<Response>, fromFile: bool): (r: Outcome)
    ensures response.None? ==> (r == LocalFileNotice <==> fromFile) && (r == ConnectionError <==> !fromFile)
    ensures response.Some? ==>
      var resp := response.value;
      var body := ReadBody(resp.contentType, resp.text, resp.json);
      && (body.None? ==> (r == LocalFileNotice <==> fromFile) && (r == ConnectionError <==> !fromFile))
      && (body.Some? && resp.ok ==> r == Sent)
      && (body.Some? && !resp.ok ==> r == Rejected(resp.status, ErrorMessage(body.value, resp.status)))
    ensures r == Sent <==>
      response.Some? && response.value.ok &&
      ReadBody(response.value.contentType, response.value.text, response.value.json).Some?
  {
    match response
    case None => if fromFile then LocalFileNotice else ConnectionError
    case Some(resp) =>
      match ReadBody(resp.contentType, resp.text, resp.json)
      case None => if fromFile then LocalFileNotice else ConnectionError
      case Some(body) =>
        if resp.ok then Sent else Rejected(resp.status, ErrorMessage(body, resp.status))
  }

  /**
   * A response that is not JSON lands in the catch exactly when reading its
   * text rejects; otherwise it is sent, or rejected with the message its status
   * picks.
   */
  lemma NonJsonOutcome(resp: Response, fromFile: bool)
    requires !IsJson(resp.contentType)
    ensures var r := Submit(Some(resp), fromFile);
      && (resp.text.None? <==> r == LocalFileNotice || r == ConnectionError)
      && (resp.text.Some? && resp.ok ==> r == Sent)
      && (resp.text.Some? && !resp.ok ==>
            r.Rejected? && r.status == resp.status && r.message in {NotFoundText, InactiveText, DefaultFailure})
      && (resp.text.Some? && !resp.ok && resp.status == 404 ==> r.message == NotFoundText)
  {
    NonJsonByStatus(resp.contentType, resp.text, resp.json, resp.status);
  }

  /**
   * The local-file notice and the connection error are exactly the two
   * outcomes of the catch, split by the page's protocol.
   */
  lemma CatchOutcomes(response: Option<Response>, fromFile: bool)
    ensures var r := Submit(response, fromFile);
      (r == LocalFileNotice || r == ConnectionError) <==>
        response.None? ||
        ReadBody(response.value.contentType, response.value.text, response.value.json).None?
    ensures Submit(response, fromFile) == LocalFileNotice ==> fromFile
  {
  }
}

=== FILE: live_client.dfy ===
/**
 * The audio session wrapper of the voice widget (services/liveClient.ts): the
 * playback scheduler that queues inbound speech chunks back to back on the output
 * clock, the barge-in branch that discards them, the guard that builds the
 * capture graph, and the teardown that releases everything the client holds.
 *
 * Browser objects (audio contexts, graph nodes) are opaque handles: the model
 * tracks only whether a field holds one, and which. Decoding a chunk is a call
 * into code outside the model, so the decoded buffer's duration arrives as a
 * parameter, as does the output context's `currentTime`.
 */
module LiveClient {
  import opened Common

  /** A non-negative time or duration in seconds on the output context's clock. */
  type Seconds = r: real | 0.0 <= r

  /** An opaque browser object: an AudioContext or an audio graph node. */
  type Handle = nat

  /** The identity of one AudioBufferSourceNode, created for one inbound chunk. */
  type SourceId = nat

  /** The ScriptProcessorNode and whether its per-frame `onaudioprocess` callback is installed. */
  datatype Processor = Processor(node: Handle, frameCallback: bool)

  /** A scheduled source: the time it was started at and its buffer's duration. */
  datatype Playback = Playback(start: Seconds, duration: Seconds) {
    function End(): Seconds { start + duration }
  }

  /**
   * The client's fields. `sources` is the set of scheduled, not yet ended sources,
   * each with its schedule; `created` counts the sources created so far, so the
   * next one created is a node no earlier source shares (its id is `created`).
   */
  datatype Client = Client(
    inputContext: Option<Handle>,
    outputContext: Option<Handle>,
    inputSource: Option<Handle>,
    processor: Option<Processor>,
    outputNode: Option<Handle>,
    nextStartTime: Seconds,
    sources: map<SourceId, Playback>,
    created: nat
  )

  /** A freshly constructed client: nothing acquired, cursor at 0, no sources. */
  function NewClient(): Client {
    Client(None, None, None, None, None, 0.0, map[], 0)
  }

  /** Sound can be scheduled only while both the output context and its gain node exist. */
  predicate CanPlay(c: Client) {
    c.outputContext.Some? && c.outputNode.Some?
  }

  /** Microphone frames reach the session only while the processor's callback is installed. */
  predicate Capturing(c: Client) {
    c.processor.Some? && c.processor.value.frameCallback
  }

  /**
   * The client's bookkeeping invariant: every source id was handed out already,
   * no scheduled source plays past the cursor, and sources created later start
   * no earlier than those created before them end (they never overlap).
   */
  ghost predicate Valid(c: Client) {
    && (forall id :: id in c.sources ==> id < c.created)
    && (forall id :: id in c.sources ==> c.sources[id].End() <= c.nextStartTime)
    && (forall a, b :: a in c.sources && b in c.sources && a < b ==> c.sources[a].End() <= c.sources[b].start)
  }

  // ----- Inbound server messages -----

  /** `inlineData.data`; an absent field is the empty string (both are falsy). */
  datatype Blob = Blob(data: string)
  datatype Part = Part(inlineData: Option<Blob>)
  datatype Turn = Turn(parts: Option<seq<Part>>)
  /** `interrupted` is false when the field is absent. */
  datatype ServerContent = ServerContent(modelTurn: Option<Turn>, interrupted: bool)
  datatype ServerMessage = ServerMessage(serverContent: Option<ServerContent>)

  /**
   * The base64 audio of `serverContent.modelTurn.parts[0].inlineData.data`, when
   * every link of the optional chain exists and the data is non-empty. Audio in
   * any later part is ignored.
   */
  function InlineAudio(m: ServerMessage): (r: Option<string>)
    ensures r.Some? ==> r.value != ""
    ensures r.Some? ==>
      && m.serverContent.Some? && m.serverContent.value.modelTurn.Some?
      && m.serverContent.value.modelTurn.value.parts.Some?
      && |m.serverContent.value.modelTurn.value.parts.value| > 0
      && m.serverContent.value.modelTurn.value.parts.value[0].inlineData == Some(Blob(r.value))
    ensures
      && m.serverContent.Some? && m.serverContent.value.modelTurn.Some?
      && m.serverContent.value.modelTurn.value.parts.Some?
      && |m.serverContent.value.modelTurn.value.parts.value| > 0
      && m.serverContent.value.modelTurn.value.parts.value[0].inlineData.Some?
      && m.serverContent.value.modelTurn.value.parts.value[0].inlineData.value.data != ""
      ==> r == Some(m.serverContent.value.modelTurn.value.parts.value[0].inlineData.value.data)
  {
    match m.serverContent
    case None => None
    case Some(content) =>
      match content.modelTurn
      case None => None
      case Some(turn) =>
        match turn.parts
        case None => None
        case Some(parts) =>
          if |parts| == 0 then None
          else match parts[0].inlineData
            case None => None
            case Some(blob) => if blob.data == "" then None else Some(blob.data)
  }

  predicate Interrupted(m: ServerMessage) {
    m.serverContent.Some? && m.serverContent.value.interrupted
  }

  // ----- Playback -----

  /**
   * Schedules one decoded chunk: the cursor first moves up to the current clock
   * if playback has fallen behind, the new source starts at the cursor, and the
   * cursor then advances by the chunk's duration. Nothing else changes.
   */
  function Schedule(c: Client, now: Seconds, duration: Seconds): (r: Client)
    ensures c.created in r.sources
    ensures var u := r.sources[c.created];
      && now <= u.start && c.nextStartTime <= u.start
      && (u.start == now || u.start == c.nextStartTime)
      && u.duration == duration
      && r.nextStartTime == u.End()
    ensures r.sources.Keys == c.sources.Keys + {c.created}
    ensures forall id :: id in c.sources && id != c.created ==> r.sources[id] == c.sources[id]
    ensures r == c.(nextStartTime := r.nextStartTime, sources := r.sources, created := c.created + 1)
  {
    var start: Seconds := Max(c.nextStartTime, now);
    c.(nextStartTime := start + duration,
       sources := c.sources[c.created := Playback(start, duration)],
       created := c.created + 1)
  }

  /**
   * Stops every scheduled source (a source whose `stop` throws is skipped
   * silently), empties the set and puts the cursor back to 0. Returns the
   * client and the sources `stop` was called on.
   */
  function StopAudioOutput(c: Client): (r: (Client, set<SourceId>))
    ensures r.1 == c.sources.Keys
    ensures r.0.sources == map[] && r.0.nextStartTime == 0.0
    ensures r.0.inputContext == c.inputContext && r.0.outputContext == c.outputContext
    ensures r.0.inputSource == c.inputSource && r.0.processor == c.processor
    ensures r.0.outputNode == c.outputNode && r.0.created == c.created
  {
    (c.(sources := map[], nextStartTime := 0.0), c.sources.Keys)
  }

  /** The message carries audio and the output side exists, so the chunk goes to the decoder. */
  predicate Decodes(c: Client, m: ServerMessage) {
    InlineAudio(m).Some? && CanPlay(c)
  }

  /**
   * One server message, handled without interleaving. `decoded` is the decoded
   * buffer's duration, or `None` when decoding rejects. When the message carries
   * playable audio, the cursor first catches up with the clock; a rejected
   * decode then throws out of the handler, so no source is created and the
   * interruption test is never reached. Otherwise the chunk is scheduled, and an
   * interruption then stops everything, including that chunk. Returns the client
   * and the sources `stop` was called on.
   */
  function HandleMessage(c: Client, m: ServerMessage, now: Seconds, decoded: Option<Seconds>): (r: (Client, set<SourceId>))
    ensures Decodes(c, m) && decoded.None? ==>
      r == (c.(nextStartTime := Max(c.nextStartTime, now)), {})
    ensures Interrupted(m) && !(Decodes(c, m) && decoded.None?) ==>
      && r.0.sources == map[] && r.0.nextStartTime == 0.0
      && r.1 == c.sources.Keys + (if Decodes(c, m) then {c.created} else {})
    ensures !Interrupted(m) && Decodes(c, m) && decoded.Some? ==>
      var start := Max(c.nextStartTime, now);
      && r.0.sources == c.sources[c.created := Playback(start, decoded.value)]
      && r.0.nextStartTime == start + decoded.value
      && r.1 == {}
    ensures !Interrupted(m) && !Decodes(c, m) ==> r == (c, {})
    ensures r.0.created == if Decodes(c, m) && decoded.Some? then c.created + 1 else c.created
    ensures r.0.inputContext == c.inputContext && r.0.outputContext == c.outputContext
    ensures r.0.inputSource == c.inputSource && r.0.processor == c.processor && r.0.outputNode == c.outputNode
  {
    if Decodes(c, m) && decoded.None? then (c.(nextStartTime := Max(c.nextStartTime, now)), {})
    else
      var scheduled := if Decodes(c, m) then Schedule(c, now, decoded.value) else c;
      if Interrupted(m) then StopAudioOutput(scheduled) else (scheduled, {})
  }

  /** The `ended` listener of source `id`: it deletes that source and nothing else. */
  function OnEnded(c: Client, id: SourceId): (r: Client)
    ensures id !in r.sources
    ensures r.sources.Keys == c.sources.Keys - {id}
    ensures forall j :: j in r.sources ==> r.sources[j] == c.sources[j]
    ensures r == c.(sources := r.sources)
  {
    c.(sources := map j | j in c.sources && j != id :: c.sources[j])
  }

  /**
   * Barge-in: after an interruption the cursor is 0 rather than the clock, yet
   * the next chunk still starts exactly at its own arrival clock, with nothing
   * else scheduled.
   */
  lemma ChunkAfterInterruptStartsAtClock(c: Client, m: ServerMessage, now: Seconds, duration: Seconds,
                                         next: ServerMessage, later: Seconds, nextDuration: Seconds)
    requires Interrupted(m) && !Interrupted(next) && InlineAudio(next).Some? && CanPlay(c)
    ensures var i := HandleMessage(c, m, now, Some(duration)).0;
      var r := HandleMessage(i, next, later, Some(nextDuration)).0;
      && r.sources.Keys == {i.created}
      && r.sources[i.created].start == later
      && r.nextStartTime == later + nextDuration
  {
  }

  /**
   * A rejected decode leaves the cursor caught up with the clock and skips the
   * interruption test: the sources already playing keep playing.
   */
  lemma DecodeFailureSkipsInterrupt(c: Client, m: ServerMessage, now: Seconds)
    requires Decodes(c, m) && Interrupted(m)
    ensures var r := HandleMessage(c, m, now, None);
      && r.1 == {} && r.0.sources == c.sources
      && r.0.nextStartTime == Max(c.nextStartTime, now)
  {
  }

  // ----- Capture -----

  /**
   * The `onopen` callback's capture setup: without an input context it does
   * nothing; otherwise it creates the microphone source node and the
   * frame processor and installs the per-frame callback.
   */
  function StartAudioInput(c: Client, source: Handle, processor: Handle): (r: Client)
    ensures c.inputContext.None? ==> r == c
    ensures c.inputContext.Some? ==>
      && r.inputSource == Some(source)
      && r.processor == Some(Processor(processor, true))
      && r == c.(inputSource := r.inputSource, processor := r.processor)
    ensures Capturing(r) <==> c.inputContext.Some? || Capturing(c)
  {
    if c.inputContext.None? then c
    else c.(inputSource := Some(source), processor := Some(Processor(processor, true)))
  }

  // ----- Teardown -----

  /** One release step of `disconnect`, each done only when the resource is present. */
  datatype Release =
    | DisconnectInputSource(node: Handle)
    | DetachProcessor(processor: Processor)  // disconnected, with its frame callback cleared
    | CloseInputContext(context: Handle)
    | CloseOutputContext(context: Handle)

  /** The position of each kind of step in the fixed teardown order. */
  function Rank(r: Release): nat {
    match r
    case DisconnectInputSource(_) => 0
    case DetachProcessor(_) => 1
    case CloseInputContext(_) => 2
    case CloseOutputContext(_) => 3
  }

  /** Steps in strictly increasing rank: each kind at most once, always in the fixed order. */
  ghost predicate InReleaseOrder(rs: seq<Release>) {
    forall i, j :: 0 <= i < j < |rs| ==> Rank(rs[i]) < Rank(rs[j])
  }

  /** What `disconnect` leaves behind, which sources it stopped and what it released, in order. */
  datatype Teardown = Teardown(client: Client, stopped: set<SourceId>, released: seq<Release>)

  /** The release steps for the resources `c` holds, in the fixed order. */
  function ReleaseSteps(c: Client): seq<Release> {
    (if c.inputSource.Some? then [DisconnectInputSource(c.inputSource.value)] else [])
    + (if c.processor.Some? then [DetachProcessor(c.processor.value.(frameCallback := false))] else [])
    + (if c.inputContext.Some? then [CloseInputContext(c.inputContext.value)] else [])
    + (if c.outputContext.Some? then [CloseOutputContext(c.outputContext.value)] else [])
  }

  /**
   * `disconnect`: stop the output, then release the microphone source node, the
   * processor (clearing its callback), the input context and the output context,
   * each only if present. The output gain node is not released.
   */
  function Disconnect(c: Client): (t: Teardown)
    ensures t.stopped == c.sources.Keys
    ensures t.client.sources == map[] && t.client.nextStartTime == 0.0
    ensures t.client.inputSource.None? && t.client.processor.None?
    ensures t.client.inputContext.None? && t.client.outputContext.None?
    ensures t.client.outputNode == c.outputNode && t.client.created == c.created
    ensures !Capturing(t.client) && !CanPlay(t.client)
    ensures |t.released| <= 4
  {
    var (stopped, ids) := StopAudioOutput(c);
    Teardown(stopped.(inputSource := None, processor := None, inputContext := None, outputContext := None),
             ids, ReleaseSteps(c))
  }

  /** Appending at most one step of rank `k` after steps of lower rank keeps the order. */
  lemma Extend(x: seq<Release>, y: seq<Release>, k: nat)
    requires InReleaseOrder(x) && forall i :: 0 <= i < |x| ==> Rank(x[i]) < k
    requires |y| <= 1 && forall j :: 0 <= j < |y| ==> Rank(y[j]) == k
    ensures InReleaseOrder(x + y) && forall i :: 0 <= i < |x + y| ==> Rank((x + y)[i]) < k + 1
  {
    var xy := x + y;
    forall i | 0 <= i < |xy|
      ensures Rank(xy[i]) < k + 1
    {
      if i < |x| { assert xy[i] == x[i]; } else { assert xy[i] == y[i - |x|]; }
    }
    forall i, j | 0 <= i < j < |xy|
      ensures Rank(xy[i]) < Rank(xy[j])
    {
      if j < |x| {
        assert xy[i] == x[i] && xy[j] == x[j];
      } else {
        assert xy[i] == x[i] && xy[j] == y[j - |x|];
      }
    }
  }

  /** The release steps come in the fixed order, each kind at most once. */
  lemma ReleaseStepsOrdered(c: Client)
    ensures InReleaseOrder(ReleaseSteps(c))
  {
    var a := if c.inputSource.Some? then [DisconnectInputSource(c.inputSource.value)] else [];
    var b := if c.processor.Some? then [DetachProcessor(c.processor.value.(frameCallback := false))] else [];
    var x := if c.inputContext.Some? then [CloseInputContext(c.inputContext.value)] else [];
    var y := if c.outputContext.Some? then [CloseOutputContext(c.outputContext.value)] else [];
    assert ReleaseSteps(c) == a + b + x + y;
    OneOfEachRank(a, b, x, y);
  }

  /** At most one step of each rank, concatenated by rank, is in release order. */
  lemma OneOfEachRank(a: seq<Release>, b: seq<Release>, x: seq<Release>, y: seq<Release>)
    requires |a| <= 1 && forall i :: 0 <= i < |a| ==> Rank(a[i]) == 0
    requires |b| <= 1 && forall i :: 0 <= i < |b| ==> Rank(b[i]) == 1
    requires |x| <= 1 && forall i :: 0 <= i < |x| ==> Rank(x[i]) == 2
    requires |y| <= 1 && forall i :: 0 <= i < |y| ==> Rank(y[i]) == 3
    ensures InReleaseOrder(a + b + x + y)
  {
    Extend([], a, 0);
    assert [] + a == a;
    Extend(a, b, 1);
    Extend(a + b, x, 2);
    Extend(a + b + x, y, 3);
  }

  /** `disconnect` releases in the fixed order, each kind of resource at most once. */
  lemma DisconnectReleaseOrder(c: Client)
    ensures InReleaseOrder(Disconnect(c).released)
  {
    ReleaseStepsOrdered(c);
  }

  /**
   * What `disconnect` releases: exactly the resources the client held, the
   * processor with its frame callback cleared.
   */
  lemma DisconnectReleasesHeld(c: Client)
    ensures var rs := Disconnect(c).released;
      && (forall r :: r in rs && r.DisconnectInputSource? ==> c.inputSource == Some(r.node))
      && (forall r :: r in rs && r.DetachProcessor? ==>
            c.processor.Some? && r.processor == c.processor.value.(frameCallback := false))
      && (forall r :: r in rs && r.CloseInputContext? ==> c.inputContext == Some(r.context))
      && (forall r :: r in rs && r.CloseOutputContext? ==> c.outputContext == Some(r.context))
      && (c.inputSource.Some? ==> DisconnectInputSource(c.inputSource.value) in rs)
      && (c.processor.Some? ==> DetachProcessor(c.processor.value.(frameCallback := false)) in rs)
      && (c.inputContext.Some? ==> CloseInputContext(c.inputContext.value) in rs)
      && (c.outputContext.Some? ==> CloseOutputContext(c.outputContext.value) in rs)
  {
    assert Disconnect(c).released == ReleaseSteps(c);
    ReleasedWereHeld(c);
    HeldAreReleased(c);
  }

  /** Every release step names a resource the client held. */
  lemma ReleasedWereHeld(c: Client)
    ensures var rs := ReleaseSteps(c);
      && (forall r :: r in rs && r.DisconnectInputSource? ==> c.inputSource == Some(r.node))
      && (forall r :: r in rs && r.DetachProcessor? ==>
            c.processor.Some? && r.processor == c.processor.value.(frameCallback := false))
      && (forall r :: r in rs && r.CloseInputContext? ==> c.inputContext == Some(r.context))
      && (forall r :: r in rs && r.CloseOutputContext? ==> c.outputContext == Some(r.context))
  {
    var a := if c.inputSource.Some? then [DisconnectInputSource(c.inputSource.value)] else [];
    var b := if c.processor.Some? then [DetachProcessor(c.processor.value.(frameCallback := false))] else [];
    var x := if c.inputContext.Some? then [CloseInputContext(c.inputContext.value)] else [];
    var y := if c.outputContext.Some? then [CloseOutputContext(c.outputContext.value)] else [];
    assert ReleaseSteps(c) == a + b + x + y;
    assert forall r :: r in ReleaseSteps(c) ==> r in a || r in b || r in x || r in y;
  }

  /** Every resource the client held has its release step. */
  lemma HeldAreReleased(c: Client)
    ensures var rs := ReleaseSteps(c);
      && (c.inputSource.Some? ==> DisconnectInputSource(c.inputSource.value) in rs)
      && (c.processor.Some? ==> DetachProcessor(c.processor.value.(frameCallback := false)) in rs)
      && (c.inputContext.Some? ==> CloseInputContext(c.inputContext.value) in rs)
      && (c.outputContext.Some? ==> CloseOutputContext(c.outputContext.value) in rs)
  {
    var a := if c.inputSource.Some? then [DisconnectInputSource(c.inputSource.value)] else [];
    var b := if c.processor.Some? then [DetachProcessor(c.processor.value.(frameCallback := false))] else [];
    var x := if c.inputContext.Some? then [CloseInputContext(c.inputContext.value)] else [];
    var y := if c.outputContext.Some? then [CloseOutputContext(c.outputContext.value)] else [];
    assert ReleaseSteps(c) == a + b + x + y;
  }

  /** A second `disconnect` stops nothing, releases nothing and changes nothing. */
  lemma DisconnectIdempotent(c: Client)
    ensures var t := Disconnect(c);
      Disconnect(t.client) == Teardown(t.client, {}, [])
  {
  }

  /** `disconnect` on a client that never connected stops and releases nothing. */
  lemma DisconnectNeverConnected()
    ensures Disconnect(NewClient()) == Teardown(NewClient(), {}, [])
  {
  }

  /** After `disconnect` no message schedules audio: the output context is gone. */
  lemma NoPlaybackAfterDisconnect(c: Client, m: ServerMessage, now: Seconds, decoded: Option<Seconds>)
    ensures var d := Disconnect(c).client;
      HandleMessage(d, m, now, decoded) == (d, {})
  {
    var d := Disconnect(c).client;
    assert d.sources.Keys == {};
  }

  /** A late `onopen` after `disconnect` builds no capture graph: the input context is gone. */
  lemma NoCaptureAfterDisconnect(c: Client, source: Handle, processor: Handle)
    ensures var d := Disconnect(c).client;
      StartAudioInput(d, source, processor) == d && !Capturing(d)
  {
  }

  // ----- Invariant -----

  /** The freshly scheduled chunk starts no earlier than any pending source ends. */
  lemma ScheduleAfterPending(c: Client, now: Seconds, duration: Seconds)
    requires Valid(c)
    ensures var r := Schedule(c, now, duration);
      forall id :: id in c.sources ==> c.sources[id].End() <= r.sources[c.created].start
  {
  }

  lemma ScheduleValid(c: Client, now: Seconds, duration: Seconds)
    requires Valid(c)
    ensures Valid(Schedule(c, now, duration))
  {
    var r := Schedule(c, now, duration);
    forall a, b | a in r.sources && b in r.sources && a < b
      ensures r.sources[a].End() <= r.sources[b].start
    {
      if b == c.created {
        assert a in c.sources;
      }
    }
  }

  /** Every handled message keeps the bookkeeping invariant. */
  lemma HandleMessageValid(c: Client, m: ServerMessage, now: Seconds, decoded: Option<Seconds>)
    requires Valid(c)
    ensures Valid(HandleMessage(c, m, now, decoded).0)
  {
    if Decodes(c, m) && decoded.Some? {
      ScheduleValid(c, now, decoded.value);
    }
  }

  /** An `ended` event keeps the bookkeeping invariant. */
  lemma OnEndedValid(c: Client, id: SourceId)
    requires Valid(c)
    ensures Valid(OnEnded(c, id))
  {
  }

  // ----- Runs of events -----

  /**
   * What the client reacts to: a server message at a clock reading, with its
   * chunk's decoded duration (`None` when decoding rejects), or a source ending.
   */
  datatype Event =
    | Receive(msg: ServerMessage, clock: Seconds, decoded: Option<Seconds>)
    | Ended(source: SourceId)

  /** One event: the handles are never touched, and only a scheduled chunk hands out an id. */
  function Step(c: Client, e: Event): (r: Client)
    ensures r.inputContext == c.inputContext && r.outputContext == c.outputContext
    ensures r.inputSource == c.inputSource && r.processor == c.processor && r.outputNode == c.outputNode
    ensures r.created == if Schedules(c, e) then c.created + 1 else c.created
  {
    match e
    case Receive(m, clock, decoded) => HandleMessage(c, m, clock, decoded).0
    case Ended(id) => OnEnded(c, id)
  }

  /** A run of events: the handles stay as they were, and one id is handed out per scheduled chunk. */
  function Run(c: Client, evs: seq<Event>): (r: Client)
    ensures r.inputContext == c.inputContext && r.outputContext == c.outputContext
    ensures r.inputSource == c.inputSource && r.processor == c.processor && r.outputNode == c.outputNode
    ensures r.created == c.created + |Scheduled(c, evs)|
    decreases |evs|
  {
    if |evs| == 0 then c else Run(Step(c, evs[0]), evs[1..])
  }

  /** Whether event `e` starts a new source when it reaches client `c`. */
  predicate Schedules(c: Client, e: Event) {
    e.Receive? && Decodes(c, e.msg) && e.decoded.Some?
  }

  /** A started source together with the clock reading at its message's arrival. */
  datatype Slot = Slot(clock: Seconds, unit: Playback)

  /** The sources a run of events starts, in the order they are started. */
  function Scheduled(c: Client, evs: seq<Event>): seq<Slot>
    decreases |evs|
  {
    if |evs| == 0 then []
    else
      var e := evs[0];
      var head := if Schedules(c, e) then [Slot(e.clock, Playback(Max(c.nextStartTime, e.clock), e.decoded.value))] else [];
      head + Scheduled(Step(c, e), evs[1..])
  }

  predicate NoInterrupt(evs: seq<Event>) {
    forall i :: 0 <= i < |evs| && evs[i].Receive? ==> !Interrupted(evs[i].msg)
  }

  /** Every chunk in the run decodes. */
  predicate AllDecoded(evs: seq<Event>) {
    forall i :: 0 <= i < |evs| && evs[i].Receive? ==> evs[i].decoded.Some?
  }

  /**
   * Without an interruption an event moves the cursor only by scheduling a
   * chunk, or, when decoding rejects, by catching up with the clock.
   */
  lemma StepCursor(c: Client, e: Event)
    requires e.Receive? ==> !Interrupted(e.msg)
    ensures Step(c, e).nextStartTime ==
      if Schedules(c, e) then Max(c.nextStartTime, e.clock) + e.decoded.value
      else if e.Receive? && Decodes(c, e.msg) then Max(c.nextStartTime, e.clock)
      else c.nextStartTime
  {
  }

  lemma NoInterruptTail(evs: seq<Event>)
    requires NoInterrupt(evs) && |evs| > 0
    ensures NoInterrupt(evs[1..])
    ensures evs[0].Receive? ==> !Interrupted(evs[0].msg)
  {
    forall i | 0 <= i < |evs[1..]| && evs[1..][i].Receive?
      ensures !Interrupted(evs[1..][i].msg)
    {
      assert evs[1..][i] == evs[i + 1];
    }
  }

  lemma AllDecodedTail(evs: seq<Event>)
    requires AllDecoded(evs) && |evs| > 0
    ensures AllDecoded(evs[1..])
    ensures evs[0].Receive? ==> evs[0].decoded.Some?
  {
    forall i | 0 <= i < |evs[1..]| && evs[1..][i].Receive?
      ensures evs[1..][i].decoded.Some?
    {
      assert evs[1..][i] == evs[i + 1];
    }
  }

  /**
   * Slots chained from cursor `from`: each starts at the later of the previous
   * end (`from` for the first) and its own arrival clock.
   */
  ghost predicate ChainedFrom(from: real, s: seq<Slot>) {
    && (|s| > 0 ==> s[0].unit.start == Max(from, s[0].clock))
    && (forall k :: 0 < k < |s| ==> s[k].unit.start == Max(s[k - 1].unit.End(), s[k].clock))
  }

  /** Where a chain of slots leaves the cursor. */
  function CursorAfter(from: real, s: seq<Slot>): real {
    if |s| == 0 then from else s[|s| - 1].unit.End()
  }

  lemma ChainedCons(from: real, first: Slot, rest: seq<Slot>)
    requires first.unit.start == Max(from, first.clock)
    requires ChainedFrom(first.unit.End(), rest)
    ensures ChainedFrom(from, [first] + rest)
    ensures CursorAfter(from, [first] + rest) == CursorAfter(first.unit.End(), rest)
  {
    var s := [first] + rest;
    forall k | 0 < k < |s|
      ensures s[k].unit.start == Max(s[k - 1].unit.End(), s[k].clock)
    {
      assert s[k] == rest[k - 1];
      if k > 1 {
        assert s[k - 1] == rest[k - 2];
      }
    }
  }

  /**
   * Gap-free playback: without an interruption, each chunk starts where the
   * previous one ends, or at its own arrival clock if that is later; the first
   * starts at the later of the initial cursor and its clock, and the cursor ends
   * at the end of the last chunk.
   */
  lemma {:induction false} Contiguous(c: Client, evs: seq<Event>)
    requires NoInterrupt(evs) && AllDecoded(evs)
    ensures ChainedFrom(c.nextStartTime, Scheduled(c, evs))
    ensures Run(c, evs).nextStartTime == CursorAfter(c.nextStartTime, Scheduled(c, evs))
    decreases |evs|
  {
    if |evs| > 0 {
      var e := evs[0];
      var c1 := Step(c, e);
      NoInterruptTail(evs);
      AllDecodedTail(evs);
      Contiguous(c1, evs[1..]);
      StepCursor(c, e);
      var rest := Scheduled(c1, evs[1..]);
      if Schedules(c, e) {
        var first := Slot(e.clock, Playback(Max(c.nextStartTime, e.clock), e.decoded.value));
        assert Scheduled(c, evs) == [first] + rest;
        ChainedCons(c.nextStartTime, first, rest);
      } else {
        assert Scheduled(c, evs) == rest;
      }
    }
  }

  /** Consequences: chunks never overlap, and a chunk arriving before its predecessor ends follows it with no gap. */
  lemma NoOverlapNoGap(c: Client, evs: seq<Event>, k: nat)
    requires NoInterrupt(evs) && AllDecoded(evs)
    requires 0 < k < |Scheduled(c, evs)|
    ensures var s := Scheduled(c, evs);
      && s[k - 1].unit.End() <= s[k].unit.start
      && (s[k].clock <= s[k - 1].unit.End() ==> s[k].unit.start == s[k - 1].unit.End())
  {
    Contiguous(c, evs);
    var s := Scheduled(c, evs);
    assert s[k].unit.start == Max(s[k - 1].unit.End(), s[k].clock);
  }

  /** Without an interruption the cursor never moves backwards. */
  lemma {:induction false} CursorMonotone(c: Client, evs: seq<Event>)
    requires NoInterrupt(evs)
    ensures c.nextStartTime <= Run(c, evs).nextStartTime
    decreases |evs|
  {
    if |evs| > 0 {
      NoInterruptTail(evs);
      StepCursor(c, evs[0]);
      CursorMonotone(Step(c, evs[0]), evs[1..]);
    }
  }

  /** Every run of events keeps the bookkeeping invariant. */
  lemma {:induction false} RunValid(c: Client, evs: seq<Event>)
    requires Valid(c)
    ensures Valid(Run(c, evs))
    decreases |evs|
  {
    if |evs| > 0 {
      match evs[0] {
        case Receive(m, clock, decoded) => HandleMessageValid(c, m, clock, decoded);
        case Ended(id) => OnEndedValid(c, id);
      }
      RunValid(Step(c, evs[0]), evs[1..]);
    }
  }

  /**
   * An id handed out before the run is never reused: if it is still scheduled
   * at the end, it was scheduled at the start with the same playback.
   */
  lemma {:induction false} OldSourcesPersist(c: Client, evs: seq<Event>, id: SourceId)
    requires id < c.created && id in Run(c, evs).sources
    ensures id in c.sources && Run(c, evs).sources[id] == c.sources[id]
    decreases |evs|
  {
    if |evs| > 0 {
      var c1 := Step(c, evs[0]);
      OldSourcesPersist(c1, evs[1..], id);
    }
  }

  /**
   * The slots of a run are the sources the client stores: the `k`-th chunk
   * started gets id `created + k`, and while it has not ended or been stopped
   * the client holds exactly that slot's playback under it.
   */
  lemma {:induction false} SlotStored(c: Client, evs: seq<Event>, k: nat)
    requires k < |Scheduled(c, evs)|
    requires c.created + k in Run(c, evs).sources
    ensures Run(c, evs).sources[c.created + k] == Scheduled(c, evs)[k].unit
    decreases |evs|
  {
    var e := evs[0];
    var c1 := Step(c, e);
    var rest := Scheduled(c1, evs[1..]);
    if Schedules(c, e) {
      var first := Slot(e.clock, Playback(Max(c.nextStartTime, e.clock), e.decoded.value));
      assert Scheduled(c, evs) == [first] + rest;
      if k == 0 {
        OldSourcesPersist(c1, evs[1..], c.created);
      } else {
        SlotStored(c1, evs[1..], k - 1);
      }
    } else {
      assert Scheduled(c, evs) == rest;
      SlotStored(c1, evs[1..], k);
    }
  }

  /** No event of the run is the `ended` event of source `id`. */
  predicate NeverEnds(evs: seq<Event>, id: SourceId) {
    forall i :: 0 <= i < |evs| && evs[i].Ended? ==> evs[i].source != id
  }

  lemma NeverEndsTail(evs: seq<Event>, id: SourceId)
    requires NeverEnds(evs, id) && |evs| > 0
    ensures NeverEnds(evs[1..], id)
    ensures evs[0].Ended? ==> evs[0].source != id
  {
    forall i | 0 <= i < |evs[1..]| && evs[1..][i].Ended?
      ensures evs[1..][i].source != id
    {
      assert evs[1..][i] == evs[i + 1];
    }
  }

  /** Without an interruption, a scheduled source stays scheduled until its own `ended` event. */
  lemma {:induction false} Persist(c: Client, evs: seq<Event>, id: SourceId)
    requires id < c.created && id in c.sources
    requires NoInterrupt(evs) && NeverEnds(evs, id)
    ensures id in Run(c, evs).sources
    decreases |evs|
  {
    if |evs| > 0 {
      NoInterruptTail(evs);
      NeverEndsTail(evs, id);
      Persist(Step(c, evs[0]), evs[1..], id);
    }
  }

  /**
   * The other half of `SlotStored`: without an interruption, the `k`-th chunk a
   * run starts is still stored at the end unless its own `ended` event came.
   */
  lemma {:induction false} SlotPresent(c: Client, evs: seq<Event>, k: nat)
    requires k < |Scheduled(c, evs)|
    requires NoInterrupt(evs) && NeverEnds(evs, c.created + k)
    ensures c.created + k in Run(c, evs).sources
    decreases |evs|
  {
    var e := evs[0];
    var c1 := Step(c, e);
    var rest := Scheduled(c1, evs[1..]);
    NoInterruptTail(evs);
    NeverEndsTail(evs, c.created + k);
    if Schedules(c, e) {
      var first := Slot(e.clock, Playback(Max(c.nextStartTime, e.clock), e.decoded.value));
      assert Scheduled(c, evs) == [first] + rest;
      if k == 0 {
        assert c.created in c1.sources;
        Persist(c1, evs[1..], c.created);
      } else {
        SlotPresent(c1, evs[1..], k - 1);
      }
    } else {
      assert Scheduled(c, evs) == rest;
      SlotPresent(c1, evs[1..], k);
    }
  }

  /** A message carrying audio and nothing else. */
  function AudioMessage(data: string): ServerMessage {
    ServerMessage(Some(ServerContent(Some(Turn(Some([Part(Some(Blob(data)))]))), false)))
  }

  /** The audio of a message built around `data` reads back as `data`, unless it is empty. */
  lemma AudioMessageRoundTrip(data: string)
    ensures InlineAudio(AudioMessage(data)) == if data == "" then None else Some(data)
    ensures !Interrupted(AudioMessage(data))
  {
  }

  /**
   * Three chunks of 0.5 s, 0.3 s and 0.2 s arriving at t0, t0 + 0.1 and t0 + 0.9
   * start at t0, t0 + 0.5 and t0 + 0.9: the third arrives after the second has
   * finished (at t0 + 0.8), so it starts at the clock, leaving a 0.1 s gap.
   */
  lemma LateChunkStartsAtClock(c: Client, t0: Seconds, data: string)
    requires CanPlay(c) && c.nextStartTime <= t0 && data != ""
    ensures var s := Scheduled(c, [Receive(AudioMessage(data), t0, Some(0.5)),
                                   Receive(AudioMessage(data), t0 + 0.1, Some(0.3)),
                                   Receive(AudioMessage(data), t0 + 0.9, Some(0.2))]);
      && |s| == 3
      && s[0].unit.start == t0
      && s[1].unit.start == t0 + 0.5
      && s[2].unit.start == t0 + 0.9
  {
    var m := AudioMessage(data);
    var evs := [Receive(m, t0, Some(0.5)), Receive(m, t0 + 0.1, Some(0.3)), Receive(m, t0 + 0.9, Some(0.2))];
    assert InlineAudio(m) == Some(data);
    var c1 := Step(c, evs[0]);
    var c2 := Step(c1, evs[1]);
    var c3 := Step(c2, evs[2]);
    assert c1.nextStartTime == t0 + 0.5 && CanPlay(c1);
    assert c2.nextStartTime == t0 + 0.8 && CanPlay(c2);
    assert evs[1..][1..] == [evs[2]];
    assert evs[1..][1..][1..] == [];
    assert Scheduled(c2, [evs[2]]) == [Slot(t0 + 0.9, Playback(t0 + 0.9, 0.2))];
    assert Scheduled(c1, evs[1..]) == [Slot(t0 + 0.1, Playback(t0 + 0.5, 0.3))] + Scheduled(c2, [evs[2]]);
  }
}

=== FILE: nav_menu.dfy ===
/**
 * The mobile navigation menu of the static page (js/main.js): the toggle button
 * and the links that close the menu.
 */
module NavMenu {

  /** The toggle's icon classes: `bi bi-list` while closed, `bi bi-x-lg` while open. */
  datatype MenuIcon = ListIcon | CloseIcon

  function IconClass(i: MenuIcon): string {
    match i
    case ListIcon => "bi bi-list"
    case CloseIcon => "bi bi-x-lg"
  }

  /** The `active` class of the link list and the toggle's icon. */
  datatype Menu = Menu(open: bool, icon: MenuIcon)

  predicate IconMatches(m: Menu) {
    m.icon == CloseIcon <==> m.open
  }

  /** A click on the toggle: flip the menu, then draw the icon for the new state. */
  function Toggle(m: Menu): (r: Menu)
    ensures r.open == !m.open
    ensures IconMatches(r)
    ensures IconClass(r.icon) == if r.open then "bi bi-x-lg" else "bi bi-list"
  {
    var open := !m.open;
    Menu(open, if open then CloseIcon else ListIcon)
  }

  /** A click on any link: the menu closes. */
  function LinkClick(m: Menu): (r: Menu)
    ensures !r.open && IconMatches(r)
    ensures IconClass(r.icon) == "bi bi-list"
  {
    Menu(false, ListIcon)
  }

  /** Two toggles restore a menu whose icon matched; closing is idempotent and a toggle after it opens. */
  lemma ToggleLaws(m: Menu)
    ensures IconMatches(m) ==> Toggle(Toggle(m)) == m
    ensures LinkClick(LinkClick(m)) == LinkClick(m)
    ensures Toggle(LinkClick(m)).open
  {
  }
}

=== FILE: project_slider.dfy ===
/**
 * The featured-projects slider of the static page (js/main.js): the update that
 * clamps its index, the per-width step, and the swipe rule.
 */
module ProjectSlider {

  /** How many project cards, each dot's `active` flag, the current index, the track offset (percent). */
  datatype Slider = Slider(total: nat, dots: seq<bool>, current: int, offsetPercent: real)

  /** The slider exists only when there is at least one card. */
  predicate Wired(p: Slider) {
    p.total > 0
  }

  /** Below 0 becomes 0, and at or past the end becomes the last card. */
  function Clamp(index: int, total: nat): (r: int)
    requires total > 0
    ensures 0 <= r < total
    ensures 0 <= index < total ==> r == index
    ensures index < 0 ==> r == 0
    ensures index >= total ==> r == total - 1
  {
    var i := if index < 0 then 0 else index;
    if i >= total then total - 1 else i
  }

  /** How far one card moves the track: one card per view on phones, two on tablets, three otherwise. */
  function MovePercent(width: int): (r: real)
    ensures width <= 768 ==> r == 100.0
    ensures 768 < width <= 1100 ==> r == 50.0
    ensures 1100 < width ==> r == 33.333
  {
    if width <= 768 then 100.0 else if width <= 1100 then 50.0 else 33.333
  }

  /** `updateProjectSlider(index)` at window width `width`. */
  function Update(p: Slider, index: int, width: int): (r: Slider)
    requires Wired(p)
    ensures r.current == Clamp(index, p.total)
    ensures 0 <= r.current < p.total
    ensures r.offsetPercent == (r.current as real) * MovePercent(width)
    ensures |r.dots| == |p.dots|
    ensures forall j :: 0 <= j < |r.dots| ==> (r.dots[j] <==> j == r.current)
    ensures r.total == p.total
  {
    var i := Clamp(index, p.total);
    p.(offsetPercent := (i as real) * MovePercent(width),
       dots := seq(|p.dots|, j requires 0 <= j < |p.dots| => j == i),
       current := i)
  }

  /** The slider's state between events: the index in range and only its dot active. */
  ghost predicate InRange(p: Slider) {
    && Wired(p)
    && 0 <= p.current < p.total
    && (forall j :: 0 <= j < |p.dots| ==> (p.dots[j] <==> j == p.current))
  }

  /**
   * `touchend` after a `touchstart` at `startX`: the two tests run one after the
   * other, the second against the index the first may have moved.
   */
  function Swipe(p: Slider, startX: real, endX: real, width: int): (r: Slider)
    requires Wired(p)
    ensures -50.0 <= startX - endX <= 50.0 ==> r == p
    ensures startX - endX > 50.0 ==> r.current == Clamp(p.current + 1, p.total)
    ensures startX - endX < -50.0 ==> r.current == Clamp(p.current - 1, p.total)
    ensures r.total == p.total && |r.dots| == |p.dots|
  {
    var afterForward := if startX - endX > 50.0 then Update(p, p.current + 1, width) else p;
    if startX - endX < -50.0 then Update(afterForward, afterForward.current - 1, width) else afterForward
  }

  /**
   * The swipe rule: more than 50 to the left moves forward one, more than 50 to
   * the right moves back one (both clamped), anything else changes nothing.
   */
  lemma SwipeRule(p: Slider, startX: real, endX: real, width: int)
    requires Wired(p)
    ensures startX - endX > 50.0 ==> Swipe(p, startX, endX, width) == Update(p, p.current + 1, width)
    ensures startX - endX < -50.0 ==> Swipe(p, startX, endX, width) == Update(p, p.current - 1, width)
    ensures -50.0 <= startX - endX <= 50.0 ==> Swipe(p, startX, endX, width) == p
  {
  }

  /** Every swipe and every update leaves the slider in range. */
  lemma SwipeInRange(p: Slider, startX: real, endX: real, width: int)
    requires InRange(p)
    ensures InRange(Swipe(p, startX, endX, width))
  {
  }

  /** A window resize re-applies the current index: the index and dots stay as they were. */
  lemma ResizeKeepsIndex(p: Slider, width: int)
    requires InRange(p)
    ensures var r := Update(p, p.current, width);
      r.current == p.current && r.dots == p.dots
  {
    var r := Update(p, p.current, width);
    assert forall j :: 0 <= j < |r.dots| ==> r.dots[j] == p.dots[j];
  }

  /** Swiping forward at the last card or back at the first leaves the index where it is. */
  lemma SwipeStopsAtEnds(p: Slider, startX: real, endX: real, width: int)
    requires InRange(p)
    ensures p.current == p.total - 1 && startX - endX > 50.0 ==>
      Swipe(p, startX, endX, width).current == p.current
    ensures p.current == 0 && startX - endX < -50.0 ==>
      Swipe(p, startX, endX, width).current == 0
  {
  }
}

=== FILE: testimonial_slider.dfy ===
/**
 * The testimonial slider of the static page (js/main.js): wrap-around next and
 * previous, and the update that moves the track and marks one dot active.
 *
 * `dots` is every element matching `.dot` on the page, which is not
 * necessarily one per slide, so a dot click may set an index at or beyond the
 * slide count; next and previous bring it back into range.
 */
module TestimonialSlider {
  import opened Common

  /** Whether the track exists, how many slides there are, each dot's `active` flag, the current index. */
  datatype Slider = Slider(hasTrack: bool, slides: nat, dots: seq<bool>, current: nat, offsetPercent: nat)

  /** `updateSlider(index)`: without a track nothing happens. */
  function Update(s: Slider, index: nat): (r: Slider)
    ensures !s.hasTrack ==> r == s
    ensures s.hasTrack ==>
      && r.current == index
      && r.offsetPercent == index * 100
      && |r.dots| == |s.dots|
      && (forall j :: 0 <= j < |r.dots| ==> (r.dots[j] <==> j == index))
      && r.hasTrack && r.slides == s.slides
  {
    if !s.hasTrack then s
    else s.(offsetPercent := index * 100,
            dots := seq(|s.dots|, j requires 0 <= j < |s.dots| => j == index),
            current := index)
  }

  /** `(currentSlide + 1) % slidesCount`: one forward, wrapping from the last slide to the first. */
  function NextIndex(cur: nat, n: nat): (r: nat)
    requires n > 0
    ensures r < n && r == (cur + 1) % n
    ensures cur + 1 < n ==> r == cur + 1
    ensures cur + 1 == n ==> r == 0
  {
    if cur + 1 < n then ModBelow(cur + 1, n); JsRem(cur + 1, n)
    else if cur + 1 == n then ModOnceAbove(cur + 1, n); JsRem(cur + 1, n)
    else JsRem(cur + 1, n)
  }

  /** `(currentSlide - 1 + slidesCount) % slidesCount`: one back, wrapping from the first slide to the last. */
  function PrevIndex(cur: nat, n: nat): (r: nat)
    requires n > 0
    ensures r < n && r == (cur + n - 1) % n
    ensures 0 < cur <= n ==> r == cur - 1
    ensures cur == 0 ==> r == n - 1
  {
    if cur == 0 then ModBelow(n - 1, n); JsRem(cur - 1 + n, n)
    else if cur <= n then ModOnceAbove(cur - 1 + n, n); JsRem(cur - 1 + n, n)
    else JsRem(cur - 1 + n, n)
  }

  lemma ModBelow(a: int, n: int)
    requires 0 <= a < n
    ensures a % n == a
  {
  }

  lemma ModOnceAbove(a: int, n: int)
    requires 0 < n <= a < 2 * n
    ensures a % n == a - n
  {
    assert (a - n) % n == a - n;
  }

  /** On an index in range, next and previous undo each other. */
  lemma NextPrevInverse(cur: nat, n: nat)
    requires n > 0 && cur < n
    ensures PrevIndex(NextIndex(cur, n), n) == cur
    ensures NextIndex(PrevIndex(cur, n), n) == cur
  {
  }

  /** The handlers are wired only when the track exists and there is at least one slide. */
  predicate Wired(s: Slider) {
    s.hasTrack && s.slides > 0
  }

  /** The next arrow and each auto-slide tick. */
  function NextSlide(s: Slider): (r: Slider)
    requires Wired(s)
    ensures r.current == NextIndex(s.current, s.slides) && r.current < s.slides
    ensures s.current + 1 < s.slides ==> r.current == s.current + 1
    ensures s.current + 1 == s.slides ==> r.current == 0
    ensures r.offsetPercent == r.current * 100
    ensures |r.dots| == |s.dots| && forall j :: 0 <= j < |r.dots| ==> (r.dots[j] <==> j == r.current)
  {
    Update(s, NextIndex(s.current, s.slides))
  }

  /** The previous arrow. */
  function PrevSlide(s: Slider): (r: Slider)
    requires Wired(s)
    ensures r.current == PrevIndex(s.current, s.slides) && r.current < s.slides
    ensures 0 < s.current <= s.slides ==> r.current == s.current - 1
    ensures s.current == 0 ==> r.current == s.slides - 1
    ensures r.offsetPercent == r.current * 100
    ensures |r.dots| == |s.dots| && forall j :: 0 <= j < |r.dots| ==> (r.dots[j] <==> j == r.current)
  {
    Update(s, PrevIndex(s.current, s.slides))
  }

  /** A click on dot `i`. */
  function DotClick(s: Slider, i: nat): (r: Slider)
    requires i < |s.dots|
    ensures |r.dots| == |s.dots|
    ensures s.hasTrack ==> r.current == i && r.dots[i]
    ensures s.hasTrack ==> r.offsetPercent == i * 100 && forall j :: 0 <= j < |r.dots| ==> (r.dots[j] <==> j == i)
    ensures !s.hasTrack ==> r == s
  {
    Update(s, i)
  }

  /** After any update at most one dot is active, and exactly one when a dot exists at the index. */
  lemma OneActiveDot(s: Slider, index: nat)
    requires s.hasTrack
    ensures var r := Update(s, index);
      && (forall i, j :: 0 <= i < j < |r.dots| ==> !(r.dots[i] && r.dots[j]))
      && (index < |r.dots| ==> r.dots[index])
  {
  }

  /** Next then previous (and previous then next) from an in-range slide returns to it. */
  lemma NextThenPrev(s: Slider)
    requires Wired(s) && s.current < s.slides
    ensures PrevSlide(NextSlide(s)).current == s.current
    ensures NextSlide(PrevSlide(s)).current == s.current
  {
    NextPrevInverse(s.current, s.slides);
  }
}

=== FILE: types.dfy ===
/** The shared enumerations of the voice widget (types.ts). */
module Types {

  /** Lifecycle of the widget's voice session, as shown to the visitor. */
  datatype ConnectionState = Disconnected | Connecting | Connected | Error
}

=== FILE: voice_agent.dfy ===
/**
 * The voice widget's connection state machine (components/VoiceAgent.tsx): the
 * toggle button, connecting and its failure path, disconnecting, the remote
 * close and error callbacks, and what the card shows in each state.
 *
 * The awaited `connect()` of the session client is an input that either opens
 * (carrying the connected client) or fails with an exception message. Each
 * handler runs to completion before the next event, so CONNECTING is visible
 * only inside a connect.
 */
module VoiceAgent {
  import opened Common
  import opened Types
  import LiveClient

  /** The message shown when a failed connect's exception has no message of its own. */
  const DefaultError: string := "Failed to connect. Check microphone and API key."

  /** The component's state hooks and its client ref. */
  datatype Widget = Widget(
    state: ConnectionState,
    volume: real,
    client: Option<LiveClient.Client>,
    error: Option<string>
  )

  /** How the awaited `client.connect()` settles; an absent `e.message` is the empty string. */
  datatype ConnectResult = Opened(connected: LiveClient.Client) | Failed(message: string)

  /** A handler's result: the new widget and, if the client's `disconnect` ran, what it tore down. */
  datatype Effect = Effect(widget: Widget, teardown: Option<LiveClient.Teardown>)

  /** The state on mount. */
  function Mount(): Widget {
    Widget(Disconnected, 0.0, None, None)
  }

  /** `e.message || default`: an empty or missing message falls back to the fixed text. */
  function FailureText(message: string): (r: string)
    ensures r != ""
    ensures message != "" ==> r == message
    ensures message == "" ==> r == DefaultError
  {
    if message != "" then message else DefaultError
  }

  /** `handleDisconnect`: tears the client down if there is one, then always rests in DISCONNECTED with volume 0. */
  function HandleDisconnect(w: Widget): (e: Effect)
    ensures e.widget.state == Disconnected && e.widget.volume == 0.0 && e.widget.client.None?
    ensures e.widget.error == w.error
    ensures e.teardown.Some? <==> w.client.Some?
    ensures w.client.Some? ==> e.teardown == Some(LiveClient.Disconnect(w.client.value))
  {
    match w.client
    case None => Effect(w.(state := Disconnected, volume := 0.0), None)
    case Some(c) =>
      Effect(w.(state := Disconnected, volume := 0.0, client := None), Some(LiveClient.Disconnect(c)))
  }

  /** The first part of `handleConnect`: CONNECTING, the error cleared, a new client in the ref. */
  function BeginConnect(w: Widget): (r: Widget)
    ensures r.state == Connecting && r.error.None?
    ensures r.client == Some(LiveClient.NewClient())
    ensures r.volume == w.volume
  {
    w.(state := Connecting, error := None, client := Some(LiveClient.NewClient()))
  }

  /**
   * The rest of `handleConnect` once `connect()` settles: CONNECTED with the
   * connected client, or ERROR with the failure text and the ref dropped
   * (without calling the client's `disconnect`).
   */
  function SettleConnect(w: Widget, result: ConnectResult): (r: Widget)
    ensures result.Opened? ==> r.state == Connected && r.client == Some(result.connected) && r.error == w.error
    ensures result.Failed? ==>
      r.state == Error && r.client.None? && r.error == Some(FailureText(result.message))
    ensures r.volume == w.volume
  {
    match result
    case Opened(c) => w.(state := Connected, client := Some(c))
    case Failed(message) => w.(state := Error, error := Some(FailureText(message)), client := None)
  }

  /** `handleConnect` as a whole. */
  function HandleConnect(w: Widget, result: ConnectResult): (e: Effect)
    ensures e.teardown.None?
    ensures result.Opened? ==>
      e.widget.state == Connected && e.widget.client == Some(result.connected) && e.widget.error.None?
    ensures result.Failed? ==>
      && e.widget.state == Error && e.widget.client.None?
      && e.widget.error == Some(FailureText(result.message))
    ensures e.widget.volume == w.volume
  {
    Effect(SettleConnect(BeginConnect(w), result), None)
  }

  /** `toggleConnection`: disconnect when CONNECTED, connect in every other state. */
  function Toggle(w: Widget, result: ConnectResult): (e: Effect)
    ensures w.state == Connected ==> e == HandleDisconnect(w)
    ensures w.state != Connected ==> e == HandleConnect(w, result)
    ensures w.state == Connected ==>
      e.widget.state == Disconnected && (e.teardown.Some? <==> w.client.Some?)
    ensures w.state != Connected ==>
      e.teardown.None? && (e.widget.state == Connected <==> result.Opened?)
      && (e.widget.state == Error <==> result.Failed?)
  {
    if w.state == Connected then HandleDisconnect(w) else HandleConnect(w, result)
  }

  /** Whether the main button is disabled: only while connecting. */
  predicate ButtonDisabled(state: ConnectionState) {
    state == Connecting
  }

  /** A press of the main button: a disabled button fires nothing. */
  function Press(w: Widget, result: ConnectResult): (e: Effect)
    ensures w.state == Connecting ==> e == Effect(w, None)
    ensures !ButtonDisabled(w.state) ==> e == Toggle(w, result)
    ensures w.state == Connected ==> e.widget.state == Disconnected
    ensures w.state in {Disconnected, Error} ==> e.widget.state in {Connected, Error} && e.teardown.None?
  {
    if ButtonDisabled(w.state) then Effect(w, None) else Toggle(w, result)
  }

  /** What the widget reacts to. */
  datatype UiEvent =
    | Click(result: ConnectResult)        // the main button
    | CloseClick                          // the X button, rendered only when CONNECTED
    | RemoteClose                         // the session's `onclose`, routed to `onDisconnect`
    | RemoteError                         // the session's `onerror`, routed to `onDisconnect`
    | VolumeSample(level: real)           // the client's per-frame volume callback
    | ClientEvent(event: LiveClient.Event) // a server message or a source ending, handled by the client in the ref
    | Unmount                             // the effect cleanup

  /** Volume samples come from the client's frame callback, so they arrive only while it captures. */
  predicate Sampling(w: Widget) {
    w.client.Some? && LiveClient.Capturing(w.client.value)
  }

  /**
   * One event. Only the client in the ref is ever torn down; client events and
   * volume samples leave the state, the error and the teardown alone, and a
   * volume sample does nothing when no frame callback is installed.
   */
  function Step(w: Widget, ev: UiEvent): (e: Effect)
    ensures e.teardown.Some? ==> w.client.Some? && e.teardown == Some(LiveClient.Disconnect(w.client.value))
    ensures ev.Click? ==> e == Press(w, ev.result)
    ensures ev.ClientEvent? || ev.VolumeSample? ==>
      && e.teardown.None? && e.widget.state == w.state && e.widget.error == w.error
      && (e.widget.client.Some? <==> w.client.Some?)
    ensures ev.ClientEvent? && w.client.Some? ==>
      e.widget.client == Some(LiveClient.Step(w.client.value, ev.event))
    ensures ev.VolumeSample? && Sampling(w) ==> e.widget.volume == ev.level && e.widget.client == w.client
    ensures ev.VolumeSample? && !Sampling(w) ==> e == Effect(w, None)
  {
    match ev
    case Click(result) => Press(w, result)
    case CloseClick => if w.state == Connected then HandleDisconnect(w) else Effect(w, None)
    case RemoteClose => HandleDisconnect(w)
    case RemoteError => HandleDisconnect(w)
    case VolumeSample(level) => if Sampling(w) then Effect(w.(volume := level), None) else Effect(w, None)
    case ClientEvent(event) =>
      if w.client.Some? then Effect(w.(client := Some(LiveClient.Step(w.client.value, event))), None)
      else Effect(w, None)
    case Unmount => HandleDisconnect(w)
  }

  /** A remote close or error takes the same path as the visitor's own disconnect. */
  lemma RemoteEndIsDisconnect(w: Widget)
    ensures Step(w, RemoteClose) == Step(w, RemoteError) == Step(w, Unmount) == HandleDisconnect(w)
    ensures w.state == Connected ==> Step(w, CloseClick) == HandleDisconnect(w)
  {
  }

  /** After a disconnect no volume sample can raise the meter again: the frame callback is gone. */
  lemma SilentAfterDisconnect(w: Widget, level: real)
    ensures var d := HandleDisconnect(w).widget;
      Step(d, VolumeSample(level)) == Effect(d, None) && d.volume == 0.0
  {
  }

  /** Disconnecting twice in a row: the second one calls nothing and changes nothing. */
  lemma DisconnectTwice(w: Widget)
    ensures var once := HandleDisconnect(w).widget;
      HandleDisconnect(once) == Effect(once, None)
  {
  }

  /**
   * The widget's invariant between events: a client is held exactly while
   * CONNECTED, and the ERROR state always has a non-empty message.
   */
  ghost predicate Consistent(w: Widget) {
    && (w.client.Some? <==> w.state == Connected)
    && (w.state == Error ==> w.error.Some? && w.error.value != "")
  }

  lemma MountConsistent()
    ensures Consistent(Mount())
  {
  }

  /** Every event keeps the invariant. */
  lemma StepConsistent(w: Widget, ev: UiEvent)
    requires Consistent(w)
    ensures Consistent(Step(w, ev).widget)
  {
  }

  /**
   * A held client is never replaced or silently dropped: every event keeps it,
   * advances it by one of its own events, or removes it through its own
   * `disconnect`.
   */
  lemma NoClientDropped(w: Widget, ev: UiEvent)
    requires Consistent(w) && w.client.Some?
    ensures var e := Step(w, ev);
      || (e.widget.client.None? && e.teardown == Some(LiveClient.Disconnect(w.client.value)))
      || (e.widget.client == w.client && e.teardown.None?)
      || (ev.ClientEvent? && e.widget.client == Some(LiveClient.Step(w.client.value, ev.event)) && e.teardown.None?)
  {
  }

  /**
   * The teardown stops what is playing now: after a client event, disconnecting
   * stops exactly the sources the advanced client holds.
   */
  lemma DisconnectStopsCurrentAudio(w: Widget, event: LiveClient.Event)
    requires w.client.Some?
    ensures var after := Step(w, ClientEvent(event)).widget;
      var t := HandleDisconnect(after).teardown;
      t.Some? && t.value.stopped == LiveClient.Step(w.client.value, event).sources.Keys
  {
  }

  // ----- Rendering -----

  /** The status label. */
  function StatusLabel(state: ConnectionState): (r: string)
    ensures r == "Kai Active" <==> state == Connected
    ensures r == "Kai Active" || r == "Kai Standby"
  {
    if state == Connected then "Kai Active" else "Kai Standby"
  }

  /** The error paragraph, rendered only in ERROR. */
  function ShownError(w: Widget): (r: Option<string>)
    ensures r.Some? ==> w.state == Error
    ensures w.state == Error ==> r == w.error
  {
    if w.state == Error then w.error else None
  }

  /** In a consistent widget the error paragraph is shown exactly in ERROR, never empty. */
  lemma ErrorShownOnlyInError(w: Widget)
    requires Consistent(w)
    ensures ShownError(w).Some? <==> w.state == Error
    ensures ShownError(w).Some? ==> ShownError(w).value != ""
  {
  }
}
